=== FILE: README.md ===
# td: a verified model of the task store and its commands

`td` is a command-line to-do list. Tasks live in one bolt bucket, `tasks`.
Each task is stored under an 8-byte big-endian key made from its integer id.
The value is the task serialised as JSON: key, text, completed flag and creation time.
The bucket's sequence counter supplies the ids.

This project models that repository layer (`db/db.go`) and the three commands built on it (`add`, `check` and `list`).
It also models the helper `util.SliceToString` that `check` uses for its report.

Modules:

- `Ints` covers Go's 64-bit `int` and `uint64`, two's-complement conversion between them, and wrap-around addition.
- `KeyCodec` covers `itob`/`btoi` as big-endian encoding into 8 bytes, and the byte order that a bolt cursor walks.
- `Decimal` covers `strconv.Itoa` and `strconv.Atoi`.
- `Text` covers `strings.Join` and `strings.Split` with a one-character separator.
- `Util` covers `SliceToString`.
- `TaskStore` models the bucket as a map from id to `Task` plus the sequence counter.
  - It contains `CreateTask`, `MarkCompleted`, `DeleteTask` and the three listings.
  - A listing walks the keys in ascending order and keeps the tasks a filter accepts.
  - `Valid` is the invariant that every write keeps:
    - each task sits under its own id;
    - every id lies between 1 and the sequence.
- `StoreHistory` applies arbitrary sequences of writes, and proves facts about the ids they hand out.
- `CheckCommand`, `ListCommand` and `AddCommand` model `runCheckCmd`, `runListCmd` and `runAddCmd`. The printed lines are returned as a sequence of strings.

Some behaviours of the code are kept exactly as written:

- Ids start at 1, because bolt's `NextSequence` returns 1 first. The model follows the code.
- `MarkCompleted` on a task that is already completed succeeds and writes nothing.
  - It fails only when the key is missing.
  - A failed `MarkCompleted` rolls its transaction back, so the store is unchanged.
- `DeleteTask` on a missing key is not an error.
- `list` fetches the uncompleted tasks before it looks at its flags. When nothing is pending, it prints "No tasks!" even under `-c` or `-a`.
  - `-c` is tested before `-a`, so `-c` wins when both are given.
  - With `-c` and no completed task, it prints "Could not find completed tasks", followed by no task lines.
- `list` prints `Key+1`, not the id. The number shown is therefore one more than the id that `check` expects. The addition is Go's 64-bit wrap-around addition.
- `fmt.Println` puts a space between its operands. That gives these lines:
  - "Failed to parse the argument:  x", with two spaces before the argument;
  - "Marked completed " + the list;
  - "Added new task: " + id.
- `check` reports every parsed id whose task exists, repeats included. Ids that do not parse or that name no task are not reported.

## Model

| member | source | states |
|---|---|---|
| Ints.Wrap | cmd/list.go:73 | Go `int` addition: the result equals the true sum when that is in range, and is congruent to it modulo 2^64 otherwise |
| Ints.IntUintRoundTrip | db/db.go:71-80 | converting an `int` to `uint64` and back gives the original value |
| KeyCodec.BigEndianValue | db/db.go:73 | the n big-endian bytes written for a value read back as that value |
| KeyCodec.BigEndianRoundTrip | db/db.go:79 | reading n bytes as a big-endian number and writing it back in n bytes gives the same bytes |
| KeyCodec.Itob | db/db.go:71-75 | every id, negative ones included, becomes a key of exactly 8 bytes |
| KeyCodec.Btoi | db/db.go:77-80 | the first 8 bytes are read as a two's-complement number: non-negative exactly when the top byte is below 0x80, and 2^64 below the unsigned value otherwise; later bytes are ignored |
| KeyCodec.ItobRoundTrip | db/db.go:70-80 | `btoi(itob(v)) == v` for every 64-bit `int`, negative ones included |
| KeyCodec.BtoiRoundTrip | db/db.go:70-80 | every 8-byte key is `itob` of its `btoi` |
| KeyCodec.ItobInjective | db/db.go:70-75 | two ids get the same key only if they are equal |
| KeyCodec.ItobOrderPreserving | db/db.go:93 | for non-negative ids, byte order of the keys (the cursor's order) is numeric order of the ids |
| KeyCodec.LexLessIsNumericLess | db/db.go:93 | for byte strings of equal length, byte order is the order of their big-endian values |
| KeyCodec.NegativeSortsAfterNonNegative | db/db.go:73 | a negative id's key sorts after every non-negative id's key, because `uint64` conversion sets the top bit |
| Decimal.ParseNatToString | util/util.go:24 | the digits `Itoa` writes for a natural number parse back to that number |
| Decimal.Itoa | util/util.go:24 | the text has at least one character, starts with `-` exactly when the number is negative, and is otherwise all digits (after the `-`, all digits too) |
| Decimal.AtoiItoa | cmd/check.go:47 | `strconv.Atoi(strconv.Itoa(i))` succeeds with `i` for every 64-bit `int` |
| Decimal.Atoi | cmd/check.go:47-48 | a successful parse is one optional sign followed by at least one digit and nothing else, and only a leading `-` gives a negative value; an unsigned digit string parses to its value when that fits in an `int` and is rejected when it does not |
| Text.Join | cmd/add.go:28 | no pieces give "", one piece gives that piece, and otherwise the text starts with the first piece |
| Text.SplitJoin | cmd/add.go:28 | joining separator-free pieces with one separator and splitting on it returns the pieces |
| Text.JoinSeparatorCount | util/util.go:28 | joining n separator-free pieces puts exactly n-1 separators in the text |
| Util.SliceToString | util/util.go:20-29 | empty list gives ""; otherwise splitting on spaces gives each element's `Itoa`, there are exactly n-1 spaces, and the text neither starts nor ends with one |
| Util.SliceToStringRoundTrip | util/util.go:20-29 | for a non-empty list, splitting the text on spaces and `Atoi`-parsing each piece gives the list back |
| TaskStore.CreateTask | db/db.go:43-68 | the id is the next sequence value, the new entry is an uncompleted task with the given text and time under that id, every other key is untouched, and in a valid store the id was unused and validity is kept |
| TaskStore.MarkCompleted | db/db.go:172-192 | error exactly when the key is missing; otherwise only that task's flag becomes true, keys and sequence stay, an already completed task leaves the store identical, and validity is kept |
| TaskStore.DeleteTask | db/db.go:166-170 | the key is gone, every other key keeps its task, the sequence stays, and validity is kept |
| TaskStore.MarkCompletedIdempotent | db/db.go:182-187 | marking twice equals marking once |
| TaskStore.DeleteTaskIdempotent | db/db.go:166-170 | deleting twice equals deleting once |
| TaskStore.SortedKeys | db/db.go:92-93 | the cursor visits exactly the bucket's keys, in strictly increasing order, for the non-negative keys a valid store holds |
| TaskStore.GetAllTasks | db/db.go:87-110 | one task per key, and the listed tasks are exactly the stored ones |
| TaskStore.GetCompletedTasks | db/db.go:139-164 | the listed tasks are exactly the stored completed ones |
| TaskStore.GetUncompletedTasks | db/db.go:112-137 | the listed tasks are exactly the stored uncompleted ones |
| TaskStore.CompletedIsFilterOfAll | db/db.go:146-154 | the completed listing is the full listing filtered on the flag, order kept |
| TaskStore.UncompletedIsFilterOfAll | db/db.go:119-127 | the uncompleted listing is the full listing filtered on the negated flag, order kept |
| TaskStore.ListingsPartitionAll | db/db_test.go:162-228 | the completed and uncompleted listings together are a permutation of the full listing, and their lengths add up to the number of tasks |
| TaskStore.AllTasksAscending | db/db.go:93-99 | in a valid store the full listing is in strictly ascending id order, and each listed task is the one stored under its id |
| TaskStore.FilteredListingsAscending | db/db.go:112-164 | in a valid store both filtered listings are in strictly ascending id order |
| TaskStore.ListingFollowsCursorOrder | db/db.go:92-93 | in a valid store consecutive listed tasks have byte-increasing `itob` keys, so the listing order is the cursor order |
| TaskStore.AscendingDeterminedByMembers | db/db.go:87-110 | two ascending task lists with the same members are equal, so a listing is determined by the stored tasks |
| TaskStore.EmptyListings | db/db.go:87-164 | a fresh bucket lists nothing in any of the three listings |
| TaskStore.CreateAppendsToAll | db/db_test.go:166-184 | in a valid store a created task is appended at the end of the full listing and nothing else moves |
| TaskStore.CreateAppendsToUncompleted | db/db_test.go:186-204 | a created task is appended to the uncompleted listing, and the completed listing does not change |
| TaskStore.MarkMovesTask | db/db_test.go:206-228 | marking a stored task takes it out of the uncompleted listing and puts it, flag set, in the completed one; no other task enters or leaves either listing, and the full listing keeps its length |
| TaskStore.DeleteRemovesFromListings | db/db.go:166-170 | deleting removes that id's task from all three listings and shortens the full listing by one exactly when it was present |
| StoreHistory.Step | db/db.go:43-68 | one write: a create issues the next sequence number, and validity is kept |
| StoreHistory.Run | db/db.go:47 | the sequence grows by exactly the number of ids issued and never by more than the number of writes |
| StoreHistory.RunIssuesIncreasing | db/db.go:47-48 | the ids handed out by any sequence of creates, marks and deletes are strictly increasing and lie above the starting sequence |
| StoreHistory.RunPreservesValid | db/db.go:43-192 | any sequence of writes keeps a valid store valid |
| StoreHistory.IssuedIdsFresh | db/db.go:47-49 | no id is handed out twice, and none collides with a key already in a valid store, even across deletes |
| StoreHistory.FreshStoreIdsCountFromOne | db/db.go:47-48 | in a fresh bucket any n creates, whatever their texts and times, return the ids 1..n |
| StoreHistory.CreatesCount | db/db.go:47-48 | any n creates, whatever their texts and times, return the n numbers after the current sequence, in order |
| StoreHistory.RunAppend | db/db.go:45 | running two batches one after the other equals running their concatenation, for the store and for the issued ids |
| CheckCommand.MarkAll | cmd/check.go:55-61 | calling `MarkCompleted` on each id keeps keys and sequence, completes exactly the tasks whose id was given, leaves the others untouched, and keeps validity |
| CheckCommand.FailureLine | cmd/check.go:49 | the line is the message, two spaces, then the argument unchanged |
| CheckCommand.FailureLineInjective | cmd/check.go:49 | two arguments give the same failure line exactly when they are equal |
| CheckCommand.ReportLine | cmd/check.go:63 | the line starts with "Marked completed "; it is exactly that prefix when nothing was marked, and otherwise the rest splits on spaces into the marked ids' numerals |
| CheckCommand.ArgumentsPartition | cmd/check.go:46-53 | each argument either parses into an id or produces one failure line |
| CheckCommand.ParsedIdsMembers | cmd/check.go:46-53 | a value is among the parsed ids exactly when some argument `Atoi`-parses to it |
| CheckCommand.ParsedIdsOfNumerals | cmd/check.go:46-53 | arguments written by `Itoa` all parse, in order, to the same ids, with no failure line |
| CheckCommand.PresentMembers | cmd/check.go:55-61 | an id is reported exactly when it was given and names a stored task |
| CheckCommand.PresentKeepsEveryFoundId | cmd/check.go:56-60 | when every id names a task, the report lists all of them, repeats included |
| CheckCommand.PresentDropsOnlyMissing | cmd/check.go:56-60 | the report is never longer than the parsed ids, and is as long exactly when every id names a task |
| CheckCommand.MarkAllIdempotent | cmd/check.go:55-61 | checking the same ids twice leaves the store as checking once |
| CheckCommand.ParseArguments | cmd/check.go:45-53 | the first loop collects exactly the parsed ids and the failure lines, in argument order |
| CheckCommand.MarkEach | cmd/check.go:55-61 | the second loop leaves the store marked as `MarkAll` describes and reports exactly the ids found, each now completed |
| CheckCommand.RunCheck | cmd/check.go:44-64 | output is one failure line per unparsable argument and then "Marked completed " with the found ids; the store changes only by completing the tasks named; validity is kept |
| ListCommand.Select | cmd/list.go:51-75 | nothing shown exactly when no task is pending; the completed notice exactly under `-c` with tasks pending and none completed; otherwise a non-empty list with the completed tasks under `-c`, every task under `-a`, the pending ones by default, ascending in a valid store |
| ListCommand.DisplayNumber | cmd/list.go:73 | the printed number is the key plus one, wrapping to the minimum `int` for the maximum key |
| ListCommand.TaskLine | cmd/list.go:73 | a task line is a number that parses back to the key plus one, then ". " and the task's text |
| ListCommand.Render | cmd/list.go:57-74 | each notice is printed alone; a task list prints one task line per task, in list order |
| ListCommand.RunList | cmd/list.go:51-75 | at least one line is printed; the first is "No tasks!" exactly when no task is pending, and then it is the only line |
| ListCommand.TaskLineIsNotAMessage | cmd/list.go:73 | a task line begins with a digit or minus sign, so it is never taken for either notice |
| ListCommand.CompletedWinsOverAll | cmd/list.go:62-70 | `-c -a` prints what `-c` prints |
| ListCommand.DefaultListsUncompleted | cmd/list.go:52-60 | without flags the lines are, one per task and in ascending id order, exactly the pending tasks |
| ListCommand.AllFlagListsEverything | cmd/list.go:67-74 | `-a` prints one line per stored task, in ascending id order |
| ListCommand.CompletedFlagListsCompleted | cmd/list.go:62-74 | `-c`, with some task pending and some completed, prints exactly the completed tasks in ascending id order |
| ListCommand.CompletedHiddenWhenAllDone | cmd/list.go:57-60 | when every task is completed, `-c` still prints only "No tasks!" |
| ListCommand.CompletedFlagWithNothingDone | cmd/list.go:62-66 | `-c` with tasks pending and none completed prints only "Could not find completed tasks" |
| ListCommand.DisplayedNumberIsKeyPlusOne | cmd/list.go:73 | the printed number parses back as id+1, not as the id `check` expects |
| AddCommand.RunAdd | cmd/add.go:22-36 | no arguments: store unchanged and "Missing task argument"; otherwise exactly one new uncompleted task under the next id holding the space-joined arguments, the line "Added new task: " and its id, other tasks untouched, validity kept |
| AddCommand.AddedLine | cmd/add.go:35 | the line is "Added new task: " followed by a number that parses back to the id |
| AddCommand.AddedLineNamesNewTask | cmd/add.go:35 | the printed number parses back to the new task's id, which no earlier task had |
| AddCommand.AddedValueSplitsIntoArguments | cmd/add.go:28 | when no argument holds a space, splitting the stored text on spaces returns the arguments |
| AddCommand.EmptyArgumentIsStored | cmd/add.go:23-26 | the only guard is the argument count: a single empty argument stores a task with empty text |
| AddCommand.AddedTaskListedLast | cmd/add.go:28-33 | the new task comes last in the full and uncompleted listings, and the completed listing is unchanged |

## Left out

- Opening, creating and closing the database file (`Init`, `Close`) is not modelled. The model starts from a bucket value.
- bolt transactions are modelled only by their effect: a successful update is applied as a whole, and a failed one changes nothing. File locking and concurrent processes are not modelled.
- JSON encoding and decoding of a task (`json.Marshal`, `unmarshalTask`) are not modelled. A stored task is kept as its record, so their errors cannot arise and are not modelled either.
- Only valid UTF-8 text is modelled. Task text and arguments are Dafny strings of Unicode characters, while Go's are byte strings. `json.Marshal` (db/db.go:58) would rewrite invalid UTF-8 bytes to U+FFFD. For such arguments, the stored text would not equal `strings.Join(args, " ")`, and the stored record would not round-trip unchanged.
- `NextSequence`'s error is discarded by the code (db/db.go:47). It cannot occur inside `Update`, so it is not modelled.
- Failures of `Put`, `Delete` and `Update` are not modelled, nor is `CreateTask` then returning `-1`.
- `time.Now()` is a parameter: the `now` of `CreateTask` and `RunAdd`. The time is an integer, not a `time.Time`.
- `util.ExitIfErr`, `handleError` and `os.Exit` are not modelled. Neither are the colour and prefix styling that `pterm` adds to its notices: a notice is its plain text.
- cobra's command and flag parsing is not modelled. `list` receives its two flags as booleans, and `add` and `check` receive their argument lists.
- `main.go` and the `delete` command are not part of this model.
- TaskStore.CreateTask: requires the sequence to be below the largest `int`. After 2^63 - 1 creations, Go's `int(id64)` would wrap to a negative id, and the model stops short of that.
- StoreHistory.Run: requires the sequence plus the number of writes to stay at or below the largest `int`, for the same reason.
- AddCommand.RunAdd: requires the sequence to be below the largest `int` when arguments are given, for the same reason.
- KeyCodec.Btoi: requires at least 8 bytes, so the panic that `binary.BigEndian.Uint64` raises on a shorter slice (db/db.go:79) is not modelled. The repository never calls `btoi`, and bolt hands back the 8-byte keys that `itob` wrote.
- `Task.String` is not modelled: it only formats the task's text.

=== FILE: add_command.dfy ===
/**
 * `td add WORDS...`: join the arguments with single spaces and store the
 * result as one new, uncompleted task.
 */
module AddCommand {
  import opened Ints
  import opened Results
  import opened Decimal
  import opened Text
  import opened TaskStore

  const MissingArgumentMessage := "Missing task argument"

  /** `fmt.Println("Added new task:", id)`: the operands are separated by a space. */
  const AddedPrefix := "Added new task: "

  /** The confirmation line; the number after the prefix parses back to the id. */
  function AddedLine(id: Int64): (line: string)
    ensures |line| > |AddedPrefix| && line[..|AddedPrefix|] == AddedPrefix
    ensures Atoi(line[|AddedPrefix|..]) == Some(id)
  {
    var line := AddedPrefix + Itoa(id);
    assert line[|AddedPrefix|..] == Itoa(id);
    AtoiItoa(id);
    line
  }

  datatype Added = Added(store: Store, output: seq<string>)

  /** `runAddCmd`. `now` stands for the `time.Now()` reading `CreateTask` takes. */
  function RunAdd(s: Store, args: seq<string>, now: Timestamp): (r: Added)
    requires |args| > 0 ==> s.sequence < MaxInt64
    ensures |args| == 0 ==> r.store == s && r.output == [MissingArgumentMessage]
    ensures |args| > 0 ==> r.store.sequence == s.sequence + 1
    ensures |args| > 0 ==> var id := r.store.sequence;
      && r.store.bucket.Keys == s.bucket.Keys + {id}
      && r.store.bucket[id].value == Join(args, " ")
      && !r.store.bucket[id].completed
      && r.store.bucket[id].created == now
      && r.output == [AddedLine(id)]
    ensures forall k :: k in s.bucket && k != r.store.sequence ==> r.store.bucket[k] == s.bucket[k]
    ensures Valid(s) ==> Valid(r.store)
  {
    if |args| == 0 then Added(s, [MissingArgumentMessage])
    else
      var c := CreateTask(s, Join(args, " "), now);
      Added(c.store, [AddedLine(c.id)])
  }

  /** The reported number is the new task's id, and in a well-formed store no
      earlier task had it. */
  lemma AddedLineNamesNewTask(s: Store, args: seq<string>, now: Timestamp)
    requires Valid(s) && |args| > 0 && s.sequence < MaxInt64
    ensures var r := RunAdd(s, args, now);
      var line := r.output[0];
      && |line| > |"Added new task: "|
      && Atoi(line[|"Added new task: "|..]) == Some(r.store.sequence)
      && r.store.sequence !in s.bucket
  {
    var r := RunAdd(s, args, now);
    var id := r.store.sequence;
    assert r.output[0][|"Added new task: "|..] == Itoa(id);
    AtoiItoa(id);
  }

  /** When no argument holds a space, splitting the stored text on spaces gives
      the arguments back. */
  lemma AddedValueSplitsIntoArguments(s: Store, args: seq<string>, now: Timestamp)
    requires |args| > 0 && s.sequence < MaxInt64
    requires forall i :: 0 <= i < |args| ==> ' ' !in args[i]
    ensures var r := RunAdd(s, args, now);
      Split(r.store.bucket[r.store.sequence].value, ' ') == args
  {
    SplitJoin(args, ' ');
  }

  /** The only guard is on the number of arguments: a single empty argument
      stores a task with empty text. */
  lemma EmptyArgumentIsStored(s: Store, now: Timestamp)
    requires s.sequence < MaxInt64
    ensures var r := RunAdd(s, [""], now);
      && r.store.bucket[r.store.sequence].value == ""
      && r.output != [MissingArgumentMessage]
  {
    var r := RunAdd(s, [""], now);
    assert r.output[0][0] == 'A';
  }

  /** The new task is listed last, in the full and in the uncompleted listings,
      and the completed listing is unchanged. */
  lemma AddedTaskListedLast(s: Store, args: seq<string>, now: Timestamp)
    requires Valid(s) && |args| > 0 && s.sequence < MaxInt64
    ensures var r := RunAdd(s, args, now);
      var t := Task(r.store.sequence, Join(args, " "), false, now);
      && GetAllTasks(r.store) == GetAllTasks(s) + [t]
      && GetUncompletedTasks(r.store) == GetUncompletedTasks(s) + [t]
      && GetCompletedTasks(r.store) == GetCompletedTasks(s)
  {
    CreateAppendsToAll(s, Join(args, " "), now);
    CreateAppendsToUncompleted(s, Join(args, " "), now);
  }
}

=== FILE: check_command.dfy ===
/**
 * `td check ID...`: parse every argument as a decimal id, mark each parsed id
 * completed, and report the ids whose task was found.
 *
 * The reference definitions below are written from the back of their input,
 * the way the command's loops build their slices with `append`.
 */
module CheckCommand {
  import opened Ints
  import opened Results
  import opened Decimal
  import opened Util
  import opened Text
  import opened TaskStore

  /** `fmt.Println` separates its operands with a space, and the message already
      ends in one, so two spaces precede the argument. */
  const FailurePrefix := "Failed to parse the argument:  "

  const ReportPrefix := "Marked completed "

  /** The line for an argument that does not parse; the argument follows the
      prefix unchanged. */
  function FailureLine(arg: string): (line: string)
    ensures |line| == |FailurePrefix| + |arg|
    ensures line[..|FailurePrefix|] == FailurePrefix && line[|FailurePrefix|..] == arg
  {
    FailurePrefix + arg
  }

  /** Distinct bad arguments give distinct lines. */
  lemma FailureLineInjective(a: string, b: string)
    ensures FailureLine(a) == FailureLine(b) <==> a == b
  {
    if FailureLine(a) == FailureLine(b) {
      assert a == FailureLine(a)[|FailurePrefix|..];
    }
  }

  /** The closing line: with nothing marked it is the bare prefix, still ending
      in the separator space; otherwise the rest splits on spaces into the
      marked ids' numerals. */
  function ReportLine(marked: seq<int>): (line: string)
    ensures |line| >= |ReportPrefix| && line[..|ReportPrefix|] == ReportPrefix
    ensures |marked| == 0 <==> line == ReportPrefix
    ensures |marked| >= 1 ==> Split(line[|ReportPrefix|..], ' ') == Numerals(marked)
  {
    var line := ReportPrefix + SliceToString(marked);
    assert line[|ReportPrefix|..] == SliceToString(marked);
    line
  }

  /** The arguments that `strconv.Atoi` accepts, converted, in argument order. */
  function ParsedIds(args: seq<string>): seq<Int64>
  {
    if |args| == 0 then []
    else
      var front := ParsedIds(args[..|args| - 1]);
      match Atoi(args[|args| - 1])
      case Some(v) => front + [v]
      case None => front
  }

  /** One failure line per argument that does not parse, in argument order. */
  function ParseFailures(args: seq<string>): seq<string>
  {
    if |args| == 0 then []
    else
      var front := ParseFailures(args[..|args| - 1]);
      var last := args[|args| - 1];
      if Atoi(last).None? then front + [FailureLine(last)] else front
  }

  /** The ids for which `MarkCompleted` succeeds: those naming a stored task,
      repeats included. */
  function Present(ids: seq<Int64>, bucket: map<Int64, Task>): seq<Int64>
  {
    if |ids| == 0 then []
    else
      var front := Present(ids[..|ids| - 1], bucket);
      if ids[|ids| - 1] in bucket then front + [ids[|ids| - 1]] else front
  }

  /** The store after calling `MarkCompleted` on each id in turn; an id with no
      task leaves the store alone. */
  function MarkAll(s: Store, ids: seq<Int64>): (r: Store)
    ensures r.sequence == s.sequence && r.bucket.Keys == s.bucket.Keys
    ensures forall k :: k in s.bucket ==>
      r.bucket[k] == if k in ids then s.bucket[k].(completed := true) else s.bucket[k]
    ensures Valid(s) ==> Valid(r)
  {
    if |ids| == 0 then s
    else
      var front := ids[..|ids| - 1];
      var prev := MarkAll(s, front);
      assert forall k :: k in ids <==> k in front || k == ids[|ids| - 1];
      match MarkCompleted(prev, ids[|ids| - 1])
      case Ok(next) => next
      case Err(_) => prev
  }

  /** Every argument either parses or produces a failure line, never both. */
  lemma {:induction false} ArgumentsPartition(args: seq<string>)
    ensures |ParsedIds(args)| + |ParseFailures(args)| == |args|
  {
    if |args| > 0 {
      ArgumentsPartition(args[..|args| - 1]);
    }
  }

  /** A value is among the parsed ids exactly when some argument parses to it. */
  lemma {:induction false} ParsedIdsMembers(args: seq<string>, v: Int64)
    ensures v in ParsedIds(args) <==> exists i :: 0 <= i < |args| && Atoi(args[i]) == Some(v)
  {
    if |args| > 0 {
      var front := args[..|args| - 1];
      ParsedIdsMembers(front, v);
      if exists i :: 0 <= i < |front| && Atoi(front[i]) == Some(v) {
        var i :| 0 <= i < |front| && Atoi(front[i]) == Some(v);
        assert Atoi(args[i]) == Some(v);
      }
      if exists i :: 0 <= i < |args| && Atoi(args[i]) == Some(v) {
        var i :| 0 <= i < |args| && Atoi(args[i]) == Some(v);
        if i < |front| {
          assert Atoi(front[i]) == Some(v);
        }
      }
    }
  }

  /** When every argument parses, the parsed ids are the values in order and
      there are no failure lines. */
  lemma {:induction false} AllParse(args: seq<string>, xs: seq<Int64>)
    requires |args| == |xs|
    requires forall i :: 0 <= i < |args| ==> Atoi(args[i]) == Some(xs[i])
    ensures ParsedIds(args) == xs
    ensures ParseFailures(args) == []
  {
    if |args| > 0 {
      var n := |args| - 1;
      var front, values := args[..n], xs[..n];
      forall i | 0 <= i < n
        ensures Atoi(front[i]) == Some(values[i])
      {
        assert front[i] == args[i] && values[i] == xs[i];
      }
      AllParse(front, values);
      assert Atoi(args[n]) == Some(xs[n]);
      assert ParsedIds(args) == values + [xs[n]];
      assert values + [xs[n]] == xs;
    }
  }

  /** Arguments written by `strconv.Itoa` all parse, back to the same ids. */
  lemma ParsedIdsOfNumerals(xs: seq<Int64>)
    ensures ParsedIds(Numerals(xs)) == xs
    ensures ParseFailures(Numerals(xs)) == []
  {
    forall i | 0 <= i < |xs|
      ensures Atoi(Numerals(xs)[i]) == Some(xs[i])
    {
      AtoiItoa(xs[i]);
    }
    AllParse(Numerals(xs), xs);
  }

  /** An id is reported exactly when it was given and names a stored task. */
  lemma {:induction false} PresentMembers(ids: seq<Int64>, bucket: map<Int64, Task>, v: Int64)
    ensures v in Present(ids, bucket) <==> v in ids && v in bucket
  {
    if |ids| > 0 {
      var front := ids[..|ids| - 1];
      PresentMembers(front, bucket, v);
      assert v in ids <==> v in front || v == ids[|ids| - 1];
    }
  }

  /** When every id names a task, all of them are reported, repeats included. */
  lemma {:induction false} PresentKeepsEveryFoundId(ids: seq<Int64>, bucket: map<Int64, Task>)
    requires forall i :: 0 <= i < |ids| ==> ids[i] in bucket
    ensures Present(ids, bucket) == ids
  {
    if |ids| > 0 {
      var front := ids[..|ids| - 1];
      PresentKeepsEveryFoundId(front, bucket);
      assert front + [ids[|ids| - 1]] == ids;
    }
  }

  /** Missing ids are dropped from the report and nothing else is. */
  lemma {:induction false} PresentDropsOnlyMissing(ids: seq<Int64>, bucket: map<Int64, Task>)
    ensures |Present(ids, bucket)| <= |ids|
    ensures |Present(ids, bucket)| == |ids| <==> forall i :: 0 <= i < |ids| ==> ids[i] in bucket
  {
    if |ids| > 0 {
      var front := ids[..|ids| - 1];
      PresentDropsOnlyMissing(front, bucket);
      if forall i :: 0 <= i < |ids| ==> ids[i] in bucket {
        assert forall i :: 0 <= i < |front| ==> front[i] in bucket by {
          forall i | 0 <= i < |front| ensures front[i] in bucket {
            assert front[i] == ids[i];
          }
        }
      }
    }
  }

  /** Checking the same ids a second time changes nothing. */
  lemma MarkAllIdempotent(s: Store, ids: seq<Int64>)
    ensures MarkAll(MarkAll(s, ids), ids) == MarkAll(s, ids)
  {
    var once := MarkAll(s, ids);
    var twice := MarkAll(once, ids);
    forall k | k in once.bucket
      ensures twice.bucket[k] == once.bucket[k]
    {
      if k in ids {
        assert once.bucket[k] == s.bucket[k].(completed := true);
      }
    }
    assert twice.bucket == once.bucket;
  }

  /** The first loop of `runCheckCmd`: parse each argument, collecting the ids
      and one failure line per argument that does not parse. */
  method ParseArguments(args: seq<string>) returns (ids: seq<Int64>, failures: seq<string>)
    ensures ids == ParsedIds(args)
    ensures failures == ParseFailures(args)
    ensures |ids| + |failures| == |args|
  {
    ids, failures := [], [];
    for i := 0 to |args|
      invariant ids == ParsedIds(args[..i])
      invariant failures == ParseFailures(args[..i])
    {
      assert args[..i + 1][..i] == args[..i];
      var parsed := Atoi(args[i]);
      if parsed.None? {
        failures := failures + [FailureLine(args[i])];
      } else {
        ids := ids + [parsed.value];
      }
    }
    assert args[..|args|] == args;
    ArgumentsPartition(args);
  }

  /** The second loop of `runCheckCmd`: mark each id, keeping those for which
      `MarkCompleted` reports no error. */
  method MarkEach(s: Store, ids: seq<Int64>) returns (s': Store, marked: seq<Int64>)
    ensures s' == MarkAll(s, ids)
    ensures marked == Present(ids, s.bucket)
    ensures forall i :: 0 <= i < |marked| ==> marked[i] in s'.bucket && s'.bucket[marked[i]].completed
  {
    s', marked := s, [];
    for j := 0 to |ids|
      invariant s' == MarkAll(s, ids[..j])
      invariant marked == Present(ids[..j], s.bucket)
    {
      assert ids[..j + 1][..j] == ids[..j];
      var r := MarkCompleted(s', ids[j]);
      if r.Ok? {
        s' := r.value;
        marked := marked + [ids[j]];
      }
    }
    assert ids[..|ids|] == ids;
    forall i | 0 <= i < |marked|
      ensures marked[i] in s'.bucket && s'.bucket[marked[i]].completed
    {
      PresentMembers(ids, s.bucket, marked[i]);
    }
  }

  /** `runCheckCmd`. Returns the new store, the ids reported as marked, and the
      printed lines. */
  method RunCheck(s: Store, args: seq<string>) returns (s': Store, marked: seq<Int64>, output: seq<string>)
    ensures marked == Present(ParsedIds(args), s.bucket)
    ensures output == ParseFailures(args) + [ReportLine(marked)]
    ensures s' == MarkAll(s, ParsedIds(args))
    ensures s'.sequence == s.sequence && s'.bucket.Keys == s.bucket.Keys
    ensures forall k :: k in s.bucket ==>
      s'.bucket[k] == if k in ParsedIds(args) then s.bucket[k].(completed := true) else s.bucket[k]
    ensures forall i :: 0 <= i < |marked| ==> marked[i] in s'.bucket && s'.bucket[marked[i]].completed
    ensures Valid(s) ==> Valid(s')
  {
    var ids, failures := ParseArguments(args);
    s', marked := MarkEach(s, ids);
    output := failures + [ReportLine(marked)];
  }
}

=== FILE: decimal.dfy ===
/**
 * Decimal rendering and parsing of integers, as done by Go's `strconv.Itoa`
 * and `strconv.Atoi` (base 10, an optional sign, range-checked to `int`).
 */
module Decimal {
  import opened Ints
  import opened Results

  predicate IsDigit(c: char)
  {
    '0' <= c <= '9'
  }

  predicate AllDigits(s: string)
  {
    forall i :: 0 <= i < |s| ==> IsDigit(s[i])
  }

  function DigitChar(d: nat): (c: char)
    requires d < 10
    ensures IsDigit(c)
  {
    (('0' as int) + d) as char
  }

  function DigitValue(c: char): (d: nat)
    requires IsDigit(c)
    ensures d < 10 && DigitChar(d) == c
  {
    (c as int) - ('0' as int)
  }

  /** The shortest decimal numeral of n, without sign or leading zeros. */
  function NatToString(n: nat): (s: string)
    ensures |s| >= 1 && AllDigits(s)
    ensures |s| > 1 ==> s[0] != '0'
  {
    if n < 10 then [DigitChar(n)]
    else NatToString(n / 10) + [DigitChar(n % 10)]
  }

  /** The value of a string of decimal digits (leading zeros allowed). */
  function ParseDigits(s: string): (n: nat)
    requires AllDigits(s)
  {
    if |s| == 0 then 0
    else ParseDigits(s[..|s| - 1]) * 10 + DigitValue(s[|s| - 1])
  }

  lemma {:induction false} ParseNatToString(n: nat)
    ensures ParseDigits(NatToString(n)) == n
  {
    if n >= 10 {
      var s := NatToString(n);
      ParseNatToString(n / 10);
      assert s[..|s| - 1] == NatToString(n / 10);
    }
  }

  /** `strconv.Itoa`. */
  function Itoa(i: int): (s: string)
    ensures |s| >= 1
    ensures s[0] == '-' <==> i < 0
    ensures i >= 0 ==> AllDigits(s)
    ensures i < 0 ==> AllDigits(s[1..])
  {
    if i < 0 then "-" + NatToString(-i) else NatToString(i)
  }

  /** `strconv.Atoi`: an optional `+` or `-`, then at least one digit, and the
      value must fit in an `int`; anything else is an error. */
  function Atoi(s: string): (r: Option<Int64>)
    ensures r.Some? ==> |s| >= 1 && (IsDigit(s[0]) || ((s[0] == '+' || s[0] == '-') && |s| >= 2))
    ensures r.Some? ==> AllDigits(s[1..])
    ensures r.Some? ==> (r.value < 0 ==> s[0] == '-')
    ensures |s| >= 1 && AllDigits(s) && ParseDigits(s) <= MaxInt64 ==> r == Some(ParseDigits(s))
    ensures |s| >= 1 && AllDigits(s) && ParseDigits(s) > MaxInt64 ==> r.None?
  {
    if |s| == 0 then None
    else
      var signed := s[0] == '+' || s[0] == '-';
      var digits := if signed then s[1..] else s;
      if |digits| == 0 || !AllDigits(digits) then None
      else
        var magnitude := ParseDigits(digits);
        var v: int := if s[0] == '-' then -(magnitude as int) else magnitude;
        if MinInt64 <= v <= MaxInt64 then Some(v) else None
  }

  /** Every `int` survives the trip through its decimal text. */
  lemma AtoiItoa(i: Int64)
    ensures Atoi(Itoa(i)) == Some(i)
  {
    var s := Itoa(i);
    if i < 0 {
      var m: nat := -(i as int);
      ParseNatToString(m);
      assert s[1..] == NatToString(m);
      assert ParseDigits(s[1..]) == m;
    } else {
      ParseNatToString(i);
      assert s == NatToString(i);
      assert IsDigit(s[0]);
    }
  }

  /** A rendered number contains no space, so it can be split back out. */
  lemma ItoaHasNoSpace(i: int)
    ensures ' ' !in Itoa(i)
  {
  }
}

=== FILE: ints.dfy ===
/** Go's 64-bit `int` and `uint64`, written out over Dafny's unbounded integers. */
module Ints {

  const TwoTo63: int := 0x8000_0000_0000_0000
  const TwoTo64: int := 0x1_0000_0000_0000_0000
  const MinInt64: int := -TwoTo63
  const MaxInt64: int := TwoTo63 - 1

  /** A value of Go's `int` on a 64-bit platform. */
  type Int64 = x: int | MinInt64 <= x <= MaxInt64

  /** A value of Go's `uint64`. */
  type Uint64 = u: int | 0 <= u < TwoTo64

  /** The conversion `uint64(v)`: two's complement reinterpretation. */
  function ToUint64(v: Int64): (u: Uint64)
    ensures v >= 0 ==> u == v
    ensures v < 0 ==> u == v + TwoTo64
  {
    if v < 0 then v + TwoTo64 else v
  }

  /** The conversion `int(u)`: values at or above 2^63 come back negative. */
  function ToInt64(u: Uint64): (v: Int64)
    ensures u < TwoTo63 ==> v == u
    ensures u >= TwoTo63 ==> v == u - TwoTo64
  {
    if u < TwoTo63 then u else u - TwoTo64
  }

  /** Go's wrapping `int` arithmetic: the 64-bit two's complement residue of x. */
  function Wrap(x: int): (r: Int64)
    ensures MinInt64 <= x <= MaxInt64 ==> r == x
    ensures (x - r) % TwoTo64 == 0
  {
    var u := x % TwoTo64;
    if u < TwoTo63 then u else u - TwoTo64
  }

  lemma IntUintRoundTrip(v: Int64)
    ensures ToInt64(ToUint64(v)) == v
  {
  }
}

=== FILE: key_codec.dfy ===
/**
 * The bucket's key codec: `itob` writes an `int` as 8 big-endian bytes and
 * `btoi` reads it back. Bolt orders keys as byte strings, so the codec's
 * order behaviour decides the order in which a cursor visits the tasks.
 */
module KeyCodec {
  import opened Ints

  type Byte = b: int | 0 <= b < 256

  function Pow256(n: nat): (p: nat)
    ensures p >= 1
  {
    if n == 0 then 1 else 256 * Pow256(n - 1)
  }

  /** The value of a byte string read as a big-endian base-256 numeral. */
  function FromBigEndian(b: seq<Byte>): (u: nat)
    ensures u < Pow256(|b|)
  {
    if |b| == 0 then 0
    else
      var rest := FromBigEndian(b[1..]);
      DigitBound(b[0], rest, Pow256(|b| - 1));
      b[0] * Pow256(|b| - 1) + rest
  }

  /** The n base-256 digits of u, most significant first. */
  function BigEndian(u: nat, n: nat): (b: seq<Byte>)
    requires u < Pow256(n)
    ensures |b| == n
  {
    if n == 0 then []
    else
      var p := Pow256(n - 1);
      LeadingDigit(u, p);
      [u / p] + BigEndian(u % p, n - 1)
  }

  /** The digits read back give the number. */
  lemma {:induction false} BigEndianValue(u: nat, n: nat)
    requires u < Pow256(n)
    ensures FromBigEndian(BigEndian(u, n)) == u
  {
    if n > 0 {
      var p := Pow256(n - 1);
      var rest := BigEndian(u % p, n - 1);
      LeadingDigit(u, p);
      BigEndianValue(u % p, n - 1);
      FromBigEndianCons(u / p, rest);
      DivMod(u, p);
    }
  }

  lemma FromBigEndianCons(d: Byte, rest: seq<Byte>)
    ensures FromBigEndian([d] + rest) == d * Pow256(|rest|) + FromBigEndian(rest)
  {
    assert ([d] + rest)[1..] == rest;
  }

  lemma DivMod(u: nat, p: nat)
    requires p >= 1
    ensures (u / p) * p + u % p == u
  {
  }

  /** `itob`: `binary.BigEndian.PutUint64(b, uint64(v))` into an 8-byte slice. */
  function Itob(v: Int64): (b: seq<Byte>)
    ensures |b| == 8
  {
    BigEndian(ToUint64(v), 8)
  }

  /** `btoi`: `int(binary.BigEndian.Uint64(b))`; Go panics on fewer than 8 bytes
      and ignores any bytes after the eighth. */
  function Btoi(b: seq<Byte>): (v: Int64)
    requires |b| >= 8
    ensures v >= 0 <==> b[0] < 0x80
    ensures v == FromBigEndian(b[..8]) - (if b[0] < 0x80 then 0 else TwoTo64)
  {
    var key := b[..8];
    TopByteGivesSign(key);
    ToInt64(FromBigEndian(key))
  }

  /** An 8-byte key reads as a number below 2^63 exactly when its top bit is clear. */
  lemma TopByteGivesSign(key: seq<Byte>)
    requires |key| == 8
    ensures FromBigEndian(key) < TwoTo63 <==> key[0] < 0x80
  {
    assert [key[0]] + key[1..] == key;
    FromBigEndianCons(key[0], key[1..]);
    assert Pow256(7) == 0x100_0000_0000_0000;
  }

  /** `bytes.Compare(a, b) < 0`, the order bolt keeps its keys in. */
  predicate LexLess(a: seq<Byte>, b: seq<Byte>)
  {
    if |a| == 0 then |b| > 0
    else if |b| == 0 then false
    else a[0] < b[0] || (a[0] == b[0] && LexLess(a[1..], b[1..]))
  }

  lemma DigitBound(d: Byte, rest: nat, p: nat)
    requires rest < p
    ensures d * p + rest < 256 * p
  {
    assert d * p <= 255 * p;
  }

  lemma LeadingDigit(u: nat, p: nat)
    requires p >= 1 && u < 256 * p
    ensures 0 <= u / p < 256
  {
  }

  lemma {:induction false} MulAtLeast(a: int, p: nat)
    requires a >= 1
    ensures a * p >= p
    decreases a
  {
    if a > 1 {
      MulAtLeast(a - 1, p);
      assert a * p == (a - 1) * p + p;
    }
  }

  lemma Distribute(x: int, y: int, p: int)
    ensures y * p - x * p == (y - x) * p
  {
  }

  /** Comparing two numerals digit by digit agrees with comparing their values. */
  lemma DigitCompare(x: Byte, rx: nat, y: Byte, ry: nat, p: nat)
    requires rx < p && ry < p
    ensures x * p + rx < y * p + ry <==> x < y || (x == y && rx < ry)
  {
    if x < y {
      MulAtLeast(y - x, p);
      Distribute(x, y, p);
    } else if y < x {
      MulAtLeast(x - y, p);
      Distribute(y, x, p);
    }
  }

  lemma {:induction false} BigEndianRoundTrip(b: seq<Byte>)
    ensures BigEndian(FromBigEndian(b), |b|) == b
  {
    if |b| > 0 {
      var p := Pow256(|b| - 1);
      var rest := FromBigEndian(b[1..]);
      var u := FromBigEndian(b);
      assert u == b[0] * p + rest;
      DivModOfDigit(b[0], rest, p);
      BigEndianRoundTrip(b[1..]);
      assert BigEndian(u, |b|) == [u / p] + BigEndian(u % p, |b| - 1);
    }
  }

  lemma DivModOfDigit(d: nat, rest: nat, p: nat)
    requires rest < p
    ensures (d * p + rest) / p == d && (d * p + rest) % p == rest
  {
    var u := d * p + rest;
    var q, r := u / p, u % p;
    assert u == q * p + r && 0 <= r < p;
    if q < d {
      MulAtLeast(d - q, p);
      Distribute(q, d, p);
      assert false;
    } else if q > d {
      MulAtLeast(q - d, p);
      Distribute(d, q, p);
      assert false;
    }
  }

  /** On equal-length byte strings, `bytes.Compare` is numeric comparison. */
  lemma {:induction false} LexLessIsNumericLess(a: seq<Byte>, b: seq<Byte>)
    requires |a| == |b|
    ensures LexLess(a, b) <==> FromBigEndian(a) < FromBigEndian(b)
  {
    if |a| > 0 {
      LexLessIsNumericLess(a[1..], b[1..]);
      DigitCompare(a[0], FromBigEndian(a[1..]), b[0], FromBigEndian(b[1..]), Pow256(|a| - 1));
    }
  }

  /** `btoi(itob(v)) == v` for every 64-bit int, negative ones included. */
  lemma ItobRoundTrip(v: Int64)
    ensures Btoi(Itob(v)) == v
  {
    assert Itob(v)[..8] == Itob(v);
    BigEndianValue(ToUint64(v), 8);
  }

  /** Every 8-byte key decodes to an int whose encoding is that key again. */
  lemma BtoiRoundTrip(b: seq<Byte>)
    requires |b| == 8
    ensures Itob(Btoi(b)) == b
  {
    assert b[..8] == b;
    BigEndianRoundTrip(b);
  }

  /** Distinct ids are stored under distinct keys. */
  lemma ItobInjective(a: Int64, b: Int64)
    ensures Itob(a) == Itob(b) <==> a == b
  {
    if Itob(a) == Itob(b) {
      ItobRoundTrip(a);
      ItobRoundTrip(b);
    }
  }

  /** For non-negative ids, key order is numeric order, so a bolt cursor visits
      tasks in ascending id order. */
  lemma ItobOrderPreserving(a: Int64, b: Int64)
    requires 0 <= a && 0 <= b
    ensures LexLess(Itob(a), Itob(b)) <==> a < b
  {
    LexLessIsNumericLess(Itob(a), Itob(b));
    BigEndianValue(ToUint64(a), 8);
    BigEndianValue(ToUint64(b), 8);
  }

  /** A negative id is written as a key above every non-negative one. */
  lemma NegativeSortsAfterNonNegative(a: Int64, b: Int64)
    requires 0 <= a && b < 0
    ensures LexLess(Itob(a), Itob(b))
  {
    LexLessIsNumericLess(Itob(a), Itob(b));
    BigEndianValue(ToUint64(a), 8);
    BigEndianValue(ToUint64(b), 8);
  }
}

=== FILE: list_command.dfy ===
/**
 * `td list [-c] [-a]`: print the uncompleted tasks, or with `-c` the completed
 * ones, or with `-a` all of them, one `"<Key+1>. <Value>"` line per task.
 *
 * Two behaviours of the command are kept as they are: the uncompleted listing
 * is consulted first whatever the flags, so a bucket whose tasks are all done
 * prints "No tasks!" even under `-c` or `-a`; and the number printed is the key
 * plus one, so it is not the id `td check` expects.
 */
module ListCommand {
  import opened Ints
  import opened Results
  import opened Decimal
  import opened TaskStore

  const NoTasksMessage := "No tasks!"
  const NoCompletedMessage := "Could not find completed tasks"

  /** Every stored task is completed (vacuously so for an empty bucket). */
  predicate AllDone(s: Store)
  {
    forall t :: t in s.bucket.Values ==> t.completed
  }

  /** No stored task is completed. */
  predicate NoneDone(s: Store)
  {
    forall t :: t in s.bucket.Values ==> !t.completed
  }

  /** What the command decides to show. */
  datatype View = NoTasks | NoCompleted | Tasks(tasks: seq<Task>)

  /** The command's branches: the uncompleted listing is fetched first and an
      empty one ends the command; otherwise `-c` is tested before `-a`. */
  function Select(s: Store, completed: bool, all: bool): (v: View)
    ensures v.NoTasks? <==> AllDone(s)
    ensures v.NoCompleted? <==> !AllDone(s) && completed && NoneDone(s)
    ensures v.Tasks? ==> |v.tasks| >= 1
    ensures v.Tasks? ==> forall t :: t in v.tasks <==>
      && t in s.bucket.Values
      && (completed ==> t.completed)
      && (!completed && !all ==> !t.completed)
    ensures v.Tasks? && Valid(s) ==> Ascending(v.tasks)
  {
    var pending := GetUncompletedTasks(s);
    UncompletedEmptyIffAllDone(s);
    ListingsAscendingWhenValid(s);
    if |pending| == 0 then NoTasks
    else if completed then
      var done := GetCompletedTasks(s);
      CompletedEmptyIffNoneDone(s);
      if |done| == 0 then NoCompleted else Tasks(done)
    else if all then
      var every := GetAllTasks(s);
      assert pending[0] in every;
      Tasks(every)
    else Tasks(pending)
  }

  lemma ListingsAscendingWhenValid(s: Store)
    ensures Valid(s) ==> Ascending(GetAllTasks(s))
    ensures Valid(s) ==> Ascending(GetCompletedTasks(s)) && Ascending(GetUncompletedTasks(s))
  {
    if Valid(s) {
      AllTasksAscending(s);
      FilteredListingsAscending(s);
    }
  }

  lemma UncompletedEmptyIffAllDone(s: Store)
    ensures |GetUncompletedTasks(s)| == 0 <==> AllDone(s)
  {
    var pending := GetUncompletedTasks(s);
    if |pending| > 0 {
      assert pending[0] in pending;
    }
  }

  lemma CompletedEmptyIffNoneDone(s: Store)
    ensures |GetCompletedTasks(s)| == 0 <==> NoneDone(s)
  {
    var done := GetCompletedTasks(s);
    if |done| > 0 {
      assert done[0] in done;
    }
  }

  /** The number `fmt.Printf("%d", task.Key+1)` prints: Go's `int` addition
      wraps at 64 bits. */
  function DisplayNumber(t: Task): (n: Int64)
    ensures t.key < MaxInt64 ==> n == t.key + 1
    ensures t.key == MaxInt64 ==> n == MinInt64
  {
    Wrap(t.key + 1)
  }

  /** One printed line: the displayed number, which parses back, then `". "`
      and the task's text. */
  function TaskLine(t: Task): (line: string)
    ensures var n := |Itoa(DisplayNumber(t))|;
      && |line| == n + 2 + |t.value|
      && Atoi(line[..n]) == Some(DisplayNumber(t))
      && line[n..] == ". " + t.value
  {
    var number := Itoa(DisplayNumber(t));
    var rest := ". " + t.value;
    SplitAtJoint(number, rest);
    AtoiItoa(DisplayNumber(t));
    assert number + ". " + t.value == number + rest;
    number + rest
  }

  lemma SplitAtJoint(a: string, b: string)
    ensures (a + b)[..|a|] == a && (a + b)[|a|..] == b
  {
  }

  /** The printed lines for a view. */
  function Render(v: View): (lines: seq<string>)
    ensures v.NoTasks? ==> lines == [NoTasksMessage]
    ensures v.NoCompleted? ==> lines == [NoCompletedMessage]
    ensures v.Tasks? ==> |lines| == |v.tasks|
    ensures v.Tasks? ==> forall i :: 0 <= i < |lines| ==> lines[i] == TaskLine(v.tasks[i])
  {
    match v
    case NoTasks => [NoTasksMessage]
    case NoCompleted => [NoCompletedMessage]
    case Tasks(ts) => seq(|ts|, i requires 0 <= i < |ts| => TaskLine(ts[i]))
  }

  /** `runListCmd`: the printed lines for the flags `-c` (`completed`) and `-a`
      (`all`). */
  function RunList(s: Store, completed: bool, all: bool): (lines: seq<string>)
    ensures |lines| >= 1
    ensures lines[0] == NoTasksMessage <==> AllDone(s)
    ensures AllDone(s) ==> lines == [NoTasksMessage]
    ensures !AllDone(s) && completed && NoneDone(s) ==> lines == [NoCompletedMessage]
  {
    var v := Select(s, completed, all);
    var lines := Render(v);
    if v.Tasks? then
      TaskLineIsNotAMessage(v.tasks[0]);
      lines
    else lines
  }

  /** A task line starts with a digit or a minus sign, so it is never one of
      the two messages. */
  lemma TaskLineIsNotAMessage(t: Task)
    ensures TaskLine(t) != NoTasksMessage && TaskLine(t) != NoCompletedMessage
  {
    var digits := Itoa(DisplayNumber(t));
    assert TaskLine(t)[0] == digits[0];
    assert digits[0] == '-' || IsDigit(digits[0]);
  }

  /** `-c` takes precedence: `-a` is ignored when `-c` is given. */
  lemma CompletedWinsOverAll(s: Store)
    ensures RunList(s, true, true) == RunList(s, true, false)
  {
  }

  /** The lines are the task lines of `ts`, one per task, in order. */
  predicate Enumerates(lines: seq<string>, ts: seq<Task>)
  {
    |lines| == |ts| && forall i :: 0 <= i < |ts| ==> lines[i] == TaskLine(ts[i])
  }

  /** Without flags the command prints the uncompleted listing: exactly the
      uncompleted tasks, in key order. */
  lemma DefaultListsUncompleted(s: Store)
    requires Valid(s) && !AllDone(s)
    ensures Enumerates(RunList(s, false, false), GetUncompletedTasks(s))
    ensures Ascending(GetUncompletedTasks(s))
    ensures forall t :: t in GetUncompletedTasks(s) <==> t in s.bucket.Values && !t.completed
  {
    var ts := GetUncompletedTasks(s);
    UncompletedEmptyIffAllDone(s);
    ListingsAscendingWhenValid(s);
    assert Select(s, false, false) == Tasks(ts);
    assert RunList(s, false, false) == Render(Tasks(ts));
  }

  /** `-a` alone prints the full listing: every task, in key order. */
  lemma AllFlagListsEverything(s: Store)
    requires Valid(s) && !AllDone(s)
    ensures Enumerates(RunList(s, false, true), GetAllTasks(s))
    ensures Ascending(GetAllTasks(s)) && |GetAllTasks(s)| == |s.bucket|
    ensures forall t :: t in GetAllTasks(s) <==> t in s.bucket.Values
  {
    var ts := GetAllTasks(s);
    UncompletedEmptyIffAllDone(s);
    ListingsAscendingWhenValid(s);
    assert Select(s, false, true) == Tasks(ts);
    assert RunList(s, false, true) == Render(Tasks(ts));
  }

  /** `-c` with some task pending and some completed prints the completed
      listing. */
  lemma CompletedFlagListsCompleted(s: Store, all: bool)
    requires Valid(s) && !AllDone(s) && !NoneDone(s)
    ensures Enumerates(RunList(s, true, all), GetCompletedTasks(s))
    ensures Ascending(GetCompletedTasks(s))
    ensures forall t :: t in GetCompletedTasks(s) <==> t in s.bucket.Values && t.completed
  {
    var ts := GetCompletedTasks(s);
    UncompletedEmptyIffAllDone(s);
    CompletedEmptyIffNoneDone(s);
    ListingsAscendingWhenValid(s);
    assert Select(s, true, all) == Tasks(ts);
    assert RunList(s, true, all) == Render(Tasks(ts));
  }

  /** Even with `-c`, completed tasks stay hidden while nothing is left to do. */
  lemma CompletedHiddenWhenAllDone(s: Store, all: bool, t: Task)
    requires t in s.bucket.Values && t.completed
    requires AllDone(s)
    ensures RunList(s, true, all) == [NoTasksMessage]
  {
  }

  /** With `-c`, some task still pending and none completed, only the notice is
      printed. */
  lemma CompletedFlagWithNothingDone(s: Store, all: bool, t: Task)
    requires t in s.bucket.Values && !t.completed
    requires NoneDone(s)
    ensures RunList(s, true, all) == [NoCompletedMessage]
  {
  }

  /** The printed number parses back as `Key+1`, not as the key: passing it to
      `td check` names the next id. */
  lemma DisplayedNumberIsKeyPlusOne(t: Task)
    requires t.key < MaxInt64
    ensures Atoi(Itoa(DisplayNumber(t))) == Some(t.key + 1)
    ensures TaskLine(t)[..|Itoa(t.key + 1)|] == Itoa(t.key + 1)
  {
    AtoiItoa(DisplayNumber(t));
  }
}

=== FILE: results.dfy ===
/** Optional values and error returns, standing in for Go's `(T, error)` pairs. */
module Results {

  datatype Option<+T> = None | Some(value: T)

  datatype Result<+T, +E> = Ok(value: T) | Err(error: E)
}

=== FILE: store_history.dfy ===
/**
 * Sequences of repository operations. The bucket's sequence only ever grows,
 * so ids handed out by `CreateTask` increase strictly and are never handed out
 * again, whatever was marked or deleted in between.
 */
module StoreHistory {
  import opened Ints
  import opened TaskStore

  datatype Op =
    | Create(value: string, now: Timestamp)
    | Mark(key: Int64)
    | Delete(key: Int64)

  /** The resulting store and the ids `CreateTask` returned, in call order. */
  datatype Trace = Trace(store: Store, issued: seq<Int64>)

  /** Ids strictly above `lo` and at most `hi`. */
  predicate IdsWithin(ids: seq<Int64>, lo: int, hi: int)
  {
    forall i :: 0 <= i < |ids| ==> lo < ids[i] <= hi
  }

  /** One operation; a failed `MarkCompleted` rolls its transaction back, so the
      store is left as it was. */
  function Step(s: Store, op: Op): (r: Trace)
    requires s.sequence < MaxInt64
    ensures s.sequence <= r.store.sequence <= s.sequence + 1
    ensures r.issued == if op.Create? then [r.store.sequence] else []
    ensures op.Create? ==> r.store.sequence == s.sequence + 1
    ensures Valid(s) ==> Valid(r.store)
  {
    match op
    case Create(value, now) =>
      var c := CreateTask(s, value, now);
      Trace(c.store, [c.id])
    case Mark(key) =>
      var m := MarkCompleted(s, key);
      Trace(if m.Ok? then m.value else s, [])
    case Delete(key) =>
      Trace(DeleteTask(s, key), [])
  }

  /** Apply the operations in order. */
  function Run(s: Store, ops: seq<Op>): (r: Trace)
    requires s.sequence + |ops| <= MaxInt64
    ensures s.sequence <= r.store.sequence <= s.sequence + |ops|
    ensures |r.issued| == r.store.sequence - s.sequence
    decreases |ops|
  {
    if |ops| == 0 then Trace(s, [])
    else
      var first := Step(s, ops[0]);
      var rest := Run(first.store, ops[1..]);
      Trace(rest.store, first.issued + rest.issued)
  }

  /** Every id `Run` reports is above the starting sequence and at most the final
      one, and they come out in strictly increasing order. */
  lemma {:induction false} RunIssuesIncreasing(s: Store, ops: seq<Op>)
    requires s.sequence + |ops| <= MaxInt64
    ensures IdsWithin(Run(s, ops).issued, s.sequence, Run(s, ops).store.sequence)
    ensures Increasing(Run(s, ops).issued)
    decreases |ops|
  {
    if |ops| > 0 {
      var first := Step(s, ops[0]);
      var rest := Run(first.store, ops[1..]);
      RunIssuesIncreasing(first.store, ops[1..]);
      ConcatIncreasing(first.issued, rest.issued, s.sequence, first.store.sequence, rest.store.sequence);
    }
  }

  /** Every operation keeps the store well formed, so a run does too. */
  lemma {:induction false} RunPreservesValid(s: Store, ops: seq<Op>)
    requires Valid(s) && s.sequence + |ops| <= MaxInt64
    ensures Valid(Run(s, ops).store)
    decreases |ops|
  {
    if |ops| > 0 {
      RunPreservesValid(Step(s, ops[0]).store, ops[1..]);
    }
  }

  lemma ConcatIncreasing(a: seq<Int64>, b: seq<Int64>, lo: int, mid: int, hi: int)
    requires lo <= mid <= hi
    requires Increasing(a) && Increasing(b)
    requires IdsWithin(a, lo, mid) && IdsWithin(b, mid, hi)
    ensures Increasing(a + b) && IdsWithin(a + b, lo, hi)
  {
    var r := a + b;
    forall i, j | 0 <= i < j < |r|
      ensures r[i] < r[j]
    {
      if j < |a| {
        assert r[i] == a[i] && r[j] == a[j];
      } else if i >= |a| {
        assert r[i] == b[i - |a|] && r[j] == b[j - |a|];
      } else {
        assert r[i] == a[i] && r[j] == b[j - |a|];
      }
    }
    forall i | 0 <= i < |r|
      ensures lo < r[i] <= hi
    {
      if i < |a| {
        assert r[i] == a[i];
      } else {
        assert r[i] == b[i - |a|];
      }
    }
  }

  /** No id is issued twice, and none collides with a key already in a valid store,
      even when tasks were deleted in between. */
  lemma IssuedIdsFresh(s: Store, ops: seq<Op>)
    requires Valid(s) && s.sequence + |ops| <= MaxInt64
    ensures forall i, j :: 0 <= i < j < |Run(s, ops).issued| ==> Run(s, ops).issued[i] != Run(s, ops).issued[j]
    ensures forall i :: 0 <= i < |Run(s, ops).issued| ==> Run(s, ops).issued[i] !in s.bucket
  {
    var ids := Run(s, ops).issued;
    RunIssuesIncreasing(s, ops);
    forall i | 0 <= i < |ids|
      ensures ids[i] !in s.bucket
    {
      assert s.sequence < ids[i];
    }
  }

  /** Every operation is a `CreateTask` call, whatever its text and time. */
  predicate AllCreates(ops: seq<Op>)
  {
    forall i :: 0 <= i < |ops| ==> ops[i].Create?
  }

  /** In a fresh bucket the ids are 1, 2, 3, ... in creation order. */
  lemma FreshStoreIdsCountFromOne(ops: seq<Op>)
    requires AllCreates(ops) && |ops| <= MaxInt64
    ensures Run(Empty, ops).issued == seq(|ops|, i => i + 1)
  {
    CreatesCount(Empty, ops);
  }

  /** n creates issue the n ids right after the sequence. */
  lemma {:induction false} CreatesCount(s: Store, ops: seq<Op>)
    requires AllCreates(ops) && s.sequence + |ops| <= MaxInt64
    ensures Run(s, ops).issued == seq(|ops|, i => s.sequence + i + 1)
    decreases |ops|
  {
    if |ops| > 0 {
      var first := Step(s, ops[0]);
      assert ops[0].Create?;
      assert AllCreates(ops[1..]) by {
        forall i | 0 <= i < |ops| - 1 ensures ops[1..][i].Create? {
          assert ops[1..][i] == ops[i + 1];
        }
      }
      CreatesCount(first.store, ops[1..]);
    }
  }

  /** Running two batches one after the other is running their concatenation. */
  lemma {:induction false} RunAppend(s: Store, a: seq<Op>, b: seq<Op>)
    requires s.sequence + |a| + |b| <= MaxInt64
    ensures Run(s, a + b).store == Run(Run(s, a).store, b).store
    ensures Run(s, a + b).issued == Run(s, a).issued + Run(Run(s, a).store, b).issued
    decreases |a|
  {
    if |a| == 0 {
      assert a + b == b;
    } else {
      var ab := a + b;
      assert ab[0] == a[0];
      assert ab[1..] == a[1..] + b;
      var first := Step(s, a[0]);
      RunAppend(first.store, a[1..], b);
      var mid := Run(first.store, a[1..]).store;
      var x, y, z := first.issued, Run(first.store, a[1..]).issued, Run(mid, b).issued;
      assert x + (y + z) == (x + y) + z;
    }
  }
}

=== FILE: task_store.dfy ===
/**
 * The task repository of `db/db.go`: one bolt bucket holding Task records
 * under auto-incremented integer keys. The bucket is a map from the id to the
 * record stored under that id's 8-byte key, plus the bucket's sequence.
 * KeyCodec shows the key is a faithful stand-in for the id, and an
 * order-preserving one for the non-negative ids a valid store holds.
 */
module TaskStore {
  import opened Ints
  import opened Results
  import opened KeyCodec

  /** `time.Time` taken from the caller; the model only carries it along. */
  type Timestamp = int

  /** A stored task. `value` stands for text that is valid UTF-8, which the
      JSON encoding stores unchanged. */
  datatype Task = Task(key: Int64, value: string, completed: bool, created: Timestamp)

  /** The `tasks` bucket and its `NextSequence` counter. */
  datatype Store = Store(bucket: map<Int64, Task>, sequence: nat)

  datatype Error = TaskNotFound

  /** A bucket freshly created by `Init`. */
  const Empty: Store := Store(map[], 0)

  /** Every record sits under its own id, and every id is one the sequence has issued. */
  ghost predicate Valid(s: Store)
  {
    && s.sequence <= MaxInt64
    && forall k :: k in s.bucket ==> s.bucket[k].key == k && 1 <= k <= s.sequence
  }

  datatype Created = Created(store: Store, id: Int64)

  /** `CreateTask`: draw the next sequence number and store a fresh, uncompleted
      task under it. */
  function CreateTask(s: Store, value: string, now: Timestamp): (r: Created)
    requires s.sequence < MaxInt64
    ensures r.id == s.sequence + 1 && r.store.sequence == r.id
    ensures r.id in r.store.bucket && r.store.bucket[r.id] == Task(r.id, value, false, now)
    ensures forall k :: k != r.id ==> (k in r.store.bucket <==> k in s.bucket)
    ensures forall k :: k in s.bucket && k != r.id ==> r.store.bucket[k] == s.bucket[k]
    ensures Valid(s) ==> r.id !in s.bucket && Valid(r.store)
  {
    var id := s.sequence + 1;
    Created(Store(s.bucket[id := Task(id, value, false, now)], id), id)
  }

  /** `MarkCompleted`: a missing key is an error; a task already completed is
      left as it is; otherwise only its `completed` flag is set. */
  function MarkCompleted(s: Store, key: Int64): (r: Result<Store, Error>)
    ensures r.Err? <==> key !in s.bucket
    ensures r.Ok? ==> r.value.sequence == s.sequence && r.value.bucket.Keys == s.bucket.Keys
    ensures r.Ok? ==> r.value.bucket[key] == s.bucket[key].(completed := true)
    ensures r.Ok? ==> forall k :: k in s.bucket && k != key ==> r.value.bucket[k] == s.bucket[k]
    ensures r.Ok? && s.bucket[key].completed ==> r.value == s
    ensures r.Ok? && Valid(s) ==> Valid(r.value)
  {
    if key !in s.bucket then Err(TaskNotFound)
    else
      var t := s.bucket[key];
      if t.completed then Ok(s)
      else Ok(s.(bucket := s.bucket[key := t.(completed := true)]))
  }

  /** `DeleteTask`: removes the key if present; deleting a missing key is not an error. */
  function DeleteTask(s: Store, key: Int64): (r: Store)
    ensures key !in r.bucket && r.sequence == s.sequence
    ensures forall k :: k != key ==> (k in r.bucket <==> k in s.bucket)
    ensures forall k :: k in r.bucket ==> r.bucket[k] == s.bucket[k]
    ensures Valid(s) ==> Valid(r)
  {
    s.(bucket := s.bucket - {key})
  }

  /** Marking the same key twice is the same as marking it once. */
  lemma MarkCompletedIdempotent(s: Store, key: Int64)
    requires MarkCompleted(s, key).Ok?
    ensures MarkCompleted(MarkCompleted(s, key).value, key) == MarkCompleted(s, key)
  {
  }

  /** Deleting is idempotent too, and never resets the sequence. */
  lemma DeleteTaskIdempotent(s: Store, key: Int64)
    ensures DeleteTask(DeleteTask(s, key), key) == DeleteTask(s, key)
  {
  }

  /** Strictly ascending keys: the shape of every listing of a valid store. */
  predicate Ascending(ts: seq<Task>)
  {
    forall i, j :: 0 <= i < j < |ts| ==> ts[i].key < ts[j].key
  }

  // ---------------------------------------------------------------------------
  // Listings. A bolt cursor visits keys in byte order; `Itob` maps ids to keys
  // so that for the ids a valid store holds this is ascending id order
  // (see ListingFollowsCursorOrder).

  predicate IsMin(ks: set<Int64>, m: Int64)
  {
    m in ks && forall k :: k in ks ==> m <= k
  }

  lemma {:induction false} MinExists(ks: set<Int64>)
    requires ks != {}
    ensures exists m :: IsMin(ks, m)
    decreases |ks|
  {
    var x :| x in ks;
    if ks == {x} {
      assert IsMin(ks, x);
    } else {
      var rest := ks - {x};
      MinExists(rest);
      var m :| IsMin(rest, m);
      var w := if x < m then x else m;
      forall k | k in ks
        ensures w <= k
      {
        if k != x {
          assert k in rest;
        }
      }
      assert IsMin(ks, w);
    }
  }

  function Min(ks: set<Int64>): (m: Int64)
    requires ks != {}
    ensures m in ks && forall k :: k in ks ==> m <= k
  {
    MinExists(ks);
    var m :| IsMin(ks, m);
    m
  }

  predicate Increasing(r: seq<Int64>)
  {
    forall i, j :: 0 <= i < j < |r| ==> r[i] < r[j]
  }

  /** The keys of a bucket in the order a cursor visits them. */
  function SortedKeys(ks: set<Int64>): (r: seq<Int64>)
    ensures forall k :: k in r <==> k in ks
    ensures Increasing(r)
    decreases ks
  {
    if ks == {} then []
    else
      var m := Min(ks);
      var rest := SortedKeys(ks - {m});
      PrependMin(ks, m, rest);
      [m] + rest
  }

  lemma PrependMin(ks: set<Int64>, m: Int64, rest: seq<Int64>)
    requires IsMin(ks, m)
    requires forall k :: k in rest <==> k in ks - {m}
    requires Increasing(rest)
    ensures forall k :: k in [m] + rest <==> k in ks
    ensures Increasing([m] + rest)
  {
    var r := [m] + rest;
    forall i, j | 0 <= i < j < |r|
      ensures r[i] < r[j]
    {
      assert r[j] == rest[j - 1];
      assert rest[j - 1] in ks - {m};
      if i > 0 {
        assert r[i] == rest[i - 1];
      }
    }
  }

  lemma {:induction false} SortedKeysLength(ks: set<Int64>)
    ensures |SortedKeys(ks)| == |ks|
    decreases ks
  {
    if ks != {} {
      SortedKeysLength(ks - {Min(ks)});
    }
  }

  /** The cursor walk of `GetAllTasks`: every record under the given keys, in order. */
  function Walk(b: map<Int64, Task>, keys: seq<Int64>): (r: seq<Task>)
    requires forall i :: 0 <= i < |keys| ==> keys[i] in b
    ensures |r| == |keys|
    ensures forall i :: 0 <= i < |keys| ==> r[i] == b[keys[i]]
  {
    if |keys| == 0 then []
    else [b[keys[0]]] + Walk(b, keys[1..])
  }

  /** The cursor walk of `GetCompletedTasks` (`want` true) and of
      `GetUncompletedTasks` (`want` false): decode each record, keep it when its
      flag matches. */
  function WalkFiltered(b: map<Int64, Task>, keys: seq<Int64>, want: bool): (r: seq<Task>)
    requires forall i :: 0 <= i < |keys| ==> keys[i] in b
    ensures |r| <= |keys|
  {
    if |keys| == 0 then []
    else
      var t := b[keys[0]];
      (if t.completed == want then [t] else []) + WalkFiltered(b, keys[1..], want)
  }

  /** The independent reference for both filtered listings: an order-preserving filter. */
  function Filter(ts: seq<Task>, want: bool): (r: seq<Task>)
    ensures |r| <= |ts|
  {
    if |ts| == 0 then []
    else (if ts[0].completed == want then [ts[0]] else []) + Filter(ts[1..], want)
  }

  function GetAllTasks(s: Store): (r: seq<Task>)
    ensures |r| == |s.bucket|
    ensures forall t :: t in r <==> t in s.bucket.Values
  {
    var keys := SortedKeys(s.bucket.Keys);
    WalkCoversBucket(s.bucket, keys);
    SortedKeysLength(s.bucket.Keys);
    Walk(s.bucket, keys)
  }

  /** A walk over all of a bucket's keys meets exactly the bucket's records. */
  lemma WalkCoversBucket(b: map<Int64, Task>, keys: seq<Int64>)
    requires forall k :: k in b <==> k in keys
    ensures forall t :: t in Walk(b, keys) <==> t in b.Values
  {
    var r := Walk(b, keys);
    forall t
      ensures t in r <==> t in b.Values
    {
      if t in b.Values {
        var k :| k in b && b[k] == t;
        var i :| 0 <= i < |keys| && keys[i] == k;
        assert r[i] == t;
      }
      if t in r {
        var i :| 0 <= i < |r| && r[i] == t;
        assert keys[i] in b && b[keys[i]] == t;
      }
    }
  }

  function GetCompletedTasks(s: Store): (r: seq<Task>)
    ensures forall t :: t in r <==> t in s.bucket.Values && t.completed
  {
    var keys := SortedKeys(s.bucket.Keys);
    WalkFilteredIsFilter(s.bucket, keys, true);
    FilterMembers(GetAllTasks(s), true);
    WalkFiltered(s.bucket, keys, true)
  }

  function GetUncompletedTasks(s: Store): (r: seq<Task>)
    ensures forall t :: t in r <==> t in s.bucket.Values && !t.completed
  {
    var keys := SortedKeys(s.bucket.Keys);
    WalkFilteredIsFilter(s.bucket, keys, false);
    FilterMembers(GetAllTasks(s), false);
    WalkFiltered(s.bucket, keys, false)
  }

  lemma {:induction false} FilterMembers(ts: seq<Task>, want: bool)
    ensures forall t :: t in Filter(ts, want) <==> t in ts && t.completed == want
  {
    if |ts| > 0 {
      FilterMembers(ts[1..], want);
      HeadTailMembers(ts);
      assert Filter(ts, want) == (if ts[0].completed == want then [ts[0]] else []) + Filter(ts[1..], want);
    }
  }

  lemma HeadTailMembers(ts: seq<Task>)
    requires |ts| > 0
    ensures forall t :: t in ts <==> t == ts[0] || t in ts[1..]
  {
    assert ts == [ts[0]] + ts[1..];
  }

  /** An order-preserving filter of an ascending listing is ascending. */
  lemma {:induction false} FilterAscending(ts: seq<Task>, want: bool)
    requires Ascending(ts)
    ensures Ascending(Filter(ts, want))
  {
    if |ts| > 0 {
      FilterAscending(ts[1..], want);
      FilterMembers(ts[1..], want);
      var rest := Filter(ts[1..], want);
      forall t | t in rest
        ensures ts[0].key < t.key
      {
        var j :| 0 <= j < |ts[1..]| && ts[1..][j] == t;
        assert ts[j + 1] == t;
      }
    }
  }

  /** In a valid store both filtered listings are in strictly ascending key order. */
  lemma FilteredListingsAscending(s: Store)
    requires Valid(s)
    ensures Ascending(GetCompletedTasks(s)) && Ascending(GetUncompletedTasks(s))
  {
    AllTasksAscending(s);
    CompletedIsFilterOfAll(s);
    UncompletedIsFilterOfAll(s);
    FilterAscending(GetAllTasks(s), true);
    FilterAscending(GetAllTasks(s), false);
  }

  lemma {:induction false} WalkFilteredIsFilter(b: map<Int64, Task>, keys: seq<Int64>, want: bool)
    requires forall i :: 0 <= i < |keys| ==> keys[i] in b
    ensures WalkFiltered(b, keys, want) == Filter(Walk(b, keys), want)
  {
    if |keys| > 0 {
      WalkFilteredIsFilter(b, keys[1..], want);
      assert Walk(b, keys)[1..] == Walk(b, keys[1..]);
    }
  }

  /** `GetCompletedTasks` is `GetAllTasks` filtered on `Completed`, order kept. */
  lemma CompletedIsFilterOfAll(s: Store)
    ensures GetCompletedTasks(s) == Filter(GetAllTasks(s), true)
  {
    WalkFilteredIsFilter(s.bucket, SortedKeys(s.bucket.Keys), true);
  }

  /** `GetUncompletedTasks` is `GetAllTasks` filtered on `!Completed`, order kept. */
  lemma UncompletedIsFilterOfAll(s: Store)
    ensures GetUncompletedTasks(s) == Filter(GetAllTasks(s), false)
  {
    WalkFilteredIsFilter(s.bucket, SortedKeys(s.bucket.Keys), false);
  }

  lemma FilterCons(h: Task, rest: seq<Task>, want: bool)
    ensures Filter([h] + rest, want) == (if h.completed == want then [h] else []) + Filter(rest, want)
  {
    assert ([h] + rest)[1..] == rest;
  }

  lemma {:induction false} FilterLengths(ts: seq<Task>)
    ensures |Filter(ts, true)| + |Filter(ts, false)| == |ts|
  {
    if |ts| > 0 {
      FilterLengths(ts[1..]);
    }
  }

  lemma HeadTailMultiset(ts: seq<Task>)
    requires |ts| > 0
    ensures multiset(ts) == multiset{ts[0]} + multiset(ts[1..])
  {
    assert ts == [ts[0]] + ts[1..];
  }

  lemma {:induction false} FilterPartition(ts: seq<Task>)
    ensures multiset(Filter(ts, true)) + multiset(Filter(ts, false)) == multiset(ts)
  {
    if |ts| > 0 {
      var h, rest := ts[0], ts[1..];
      FilterPartition(rest);
      HeadTailMultiset(ts);
      assert Filter(ts, true) == (if h.completed then [h] else []) + Filter(rest, true);
      assert Filter(ts, false) == (if !h.completed then [h] else []) + Filter(rest, false);
    }
  }

  /** The two filtered listings split the full listing: together they hold every
      task exactly once, so their lengths add up to its length. */
  lemma ListingsPartitionAll(s: Store)
    ensures multiset(GetCompletedTasks(s)) + multiset(GetUncompletedTasks(s)) == multiset(GetAllTasks(s))
    ensures |GetCompletedTasks(s)| + |GetUncompletedTasks(s)| == |s.bucket|
  {
    CompletedIsFilterOfAll(s);
    UncompletedIsFilterOfAll(s);
    FilterPartition(GetAllTasks(s));
    FilterLengths(GetAllTasks(s));
  }

  /** In a valid store the full listing runs in strictly ascending key order and
      each listed task is the record stored under its own key. */
  lemma AllTasksAscending(s: Store)
    requires Valid(s)
    ensures Ascending(GetAllTasks(s))
    ensures forall t :: t in GetAllTasks(s) ==> t.key in s.bucket && s.bucket[t.key] == t
  {
    var keys := SortedKeys(s.bucket.Keys);
    WalkAscending(s.bucket, keys);
    forall t | t in GetAllTasks(s)
      ensures t.key in s.bucket && s.bucket[t.key] == t
    {
      var k :| k in s.bucket && s.bucket[k] == t;
    }
  }

  lemma WalkAscending(b: map<Int64, Task>, keys: seq<Int64>)
    requires forall i :: 0 <= i < |keys| ==> keys[i] in b && b[keys[i]].key == keys[i]
    requires forall i, j :: 0 <= i < j < |keys| ==> keys[i] < keys[j]
    ensures Ascending(Walk(b, keys))
  {
    var r := Walk(b, keys);
    forall i, j | 0 <= i < j < |r|
      ensures r[i].key < r[j].key
    {
      assert r[i] == b[keys[i]] && r[j] == b[keys[j]];
    }
  }

  /** Consecutive listed tasks have byte-ordered keys: ascending id order is the
      order bolt's cursor produces. */
  lemma ListingFollowsCursorOrder(s: Store)
    requires Valid(s)
    ensures forall i, j :: 0 <= i < j < |GetAllTasks(s)| ==>
      LexLess(Itob(GetAllTasks(s)[i].key), Itob(GetAllTasks(s)[j].key))
  {
    var all := GetAllTasks(s);
    AllTasksAscending(s);
    forall i, j | 0 <= i < j < |all|
      ensures LexLess(Itob(all[i].key), Itob(all[j].key))
    {
      ItobOrderPreserving(all[i].key, all[j].key);
    }
  }

  lemma SameHeadAndTail(r: seq<Task>, q: seq<Task>)
    requires |r| > 0 && |q| > 0 && r[0] == q[0] && r[1..] == q[1..]
    ensures r == q
  {
    assert r == [r[0]] + r[1..];
    assert q == [q[0]] + q[1..];
  }

  lemma HeadIsMember(ts: seq<Task>)
    ensures |ts| > 0 ==> ts[0] in ts
  {
  }

  /** In an ascending listing the head holds the least key, and the tail is
      everything but the head. */
  lemma AscendingHeadTail(r: seq<Task>)
    requires Ascending(r) && |r| > 0
    ensures forall t :: t in r ==> r[0].key <= t.key
    ensures forall t :: t in r[1..] <==> t in r && t != r[0]
  {
    forall t | t in r
      ensures r[0].key <= t.key
      ensures t in r[1..] <==> t != r[0]
    {
      var i :| 0 <= i < |r| && r[i] == t;
      if i > 0 {
        assert r[1..][i - 1] == t;
      }
    }
  }

  /** An ascending listing is determined by which tasks it holds. */
  lemma {:induction false} AscendingDeterminedByMembers(r: seq<Task>, q: seq<Task>)
    requires Ascending(r) && Ascending(q)
    requires forall t :: t in r <==> t in q
    ensures r == q
    decreases |r|
  {
    if |r| == 0 {
      HeadIsMember(q);
    } else {
      assert r[0] in r;
      AscendingHeadTail(r);
      AscendingHeadTail(q);
      assert r[0] == q[0] by {
        assert r[0].key <= q[0].key && q[0].key <= r[0].key;
      }
      assert Ascending(r[1..]) && Ascending(q[1..]);
      AscendingDeterminedByMembers(r[1..], q[1..]);
      SameHeadAndTail(r, q);
    }
  }

  // ---------------------------------------------------------------------------
  // How each write shows up in the listings.

  lemma ValuesInsertFresh(b: map<Int64, Task>, k: Int64, t: Task)
    requires k !in b
    ensures forall x :: x in b[k := t].Values <==> x in b.Values || x == t
  {
    forall x
      ensures x in b[k := t].Values <==> x in b.Values || x == t
    {
      if x in b.Values {
        var j :| j in b && b[j] == x;
        assert b[k := t][j] == x;
      }
      assert b[k := t][k] == t;
    }
  }

  lemma ValuesReplace(b: map<Int64, Task>, k: Int64, t: Task)
    requires k in b && t.key == k
    requires forall j :: j in b ==> b[j].key == j
    ensures forall x :: x in b[k := t].Values <==> (x in b.Values && x.key != k) || x == t
  {
    forall x
      ensures x in b[k := t].Values <==> (x in b.Values && x.key != k) || x == t
    {
      if x in b.Values && x.key != k {
        var j :| j in b && b[j] == x;
        assert b[k := t][j] == x;
      }
      assert b[k := t][k] == t;
    }
  }

  lemma ValuesRemove(b: map<Int64, Task>, k: Int64)
    requires forall j :: j in b ==> b[j].key == j
    ensures forall x :: x in (b - {k}).Values <==> x in b.Values && x.key != k
  {
    forall x
      ensures x in (b - {k}).Values <==> x in b.Values && x.key != k
    {
      if x in b.Values && x.key != k {
        var j :| j in b && b[j] == x;
        assert (b - {k})[j] == x;
      }
    }
  }

  lemma AppendAscending(ts: seq<Task>, t: Task)
    requires Ascending(ts)
    requires forall x :: x in ts ==> x.key < t.key
    ensures Ascending(ts + [t])
  {
    var r := ts + [t];
    forall i, j | 0 <= i < j < |r|
      ensures r[i].key < r[j].key
    {
      assert r[i] == ts[i];
      if j < |ts| {
        assert r[j] == ts[j];
      } else {
        assert ts[i] in ts;
      }
    }
  }

  /** A fresh bucket lists nothing. */
  lemma EmptyListings()
    ensures GetAllTasks(Empty) == [] && GetCompletedTasks(Empty) == [] && GetUncompletedTasks(Empty) == []
  {
    assert SortedKeys(Empty.bucket.Keys) == [];
  }

  /** An ascending listing whose members are another's plus one task with a
      larger key than all of them is that listing with the task appended. */
  lemma AppendDetermined(r: seq<Task>, ts: seq<Task>, t: Task)
    requires Ascending(r) && Ascending(ts)
    requires forall x :: x in ts ==> x.key < t.key
    requires forall x :: x in r <==> x in ts || x == t
    ensures r == ts + [t]
  {
    AppendAscending(ts, t);
    assert forall x :: x in ts + [t] <==> x in ts || x == t;
    AscendingDeterminedByMembers(r, ts + [t]);
  }

  lemma CreateKeepsOldKeysBelow(s: Store, value: string, now: Timestamp)
    requires Valid(s) && s.sequence < MaxInt64
    ensures forall x :: x in s.bucket.Values ==> x.key < CreateTask(s, value, now).id
  {
  }

  /** A created task goes to the end of the full listing: listing order is creation order. */
  lemma CreateAppendsToAll(s: Store, value: string, now: Timestamp)
    requires Valid(s) && s.sequence < MaxInt64
    ensures var c := CreateTask(s, value, now);
      GetAllTasks(c.store) == GetAllTasks(s) + [Task(c.id, value, false, now)]
  {
    var c := CreateTask(s, value, now);
    var t := Task(c.id, value, false, now);
    ValuesInsertFresh(s.bucket, c.id, t);
    CreateKeepsOldKeysBelow(s, value, now);
    AllTasksAscending(s);
    AllTasksAscending(c.store);
    AppendDetermined(GetAllTasks(c.store), GetAllTasks(s), t);
  }

  /** A created task goes to the end of the uncompleted listing and leaves the
      completed listing as it was. */
  lemma CreateAppendsToUncompleted(s: Store, value: string, now: Timestamp)
    requires Valid(s) && s.sequence < MaxInt64
    ensures var c := CreateTask(s, value, now);
      && GetUncompletedTasks(c.store) == GetUncompletedTasks(s) + [Task(c.id, value, false, now)]
      && GetCompletedTasks(c.store) == GetCompletedTasks(s)
  {
    var c := CreateTask(s, value, now);
    var t := Task(c.id, value, false, now);
    ValuesInsertFresh(s.bucket, c.id, t);
    CreateKeepsOldKeysBelow(s, value, now);
    FilteredListingsAscending(s);
    FilteredListingsAscending(c.store);
    AppendDetermined(GetUncompletedTasks(c.store), GetUncompletedTasks(s), t);
    AscendingDeterminedByMembers(GetCompletedTasks(c.store), GetCompletedTasks(s));
  }

  /** Marking a present task moves it, flag set, from the uncompleted listing to
      the completed one; no other task enters or leaves either listing. */
  lemma MarkMovesTask(s: Store, key: Int64)
    requires Valid(s) && key in s.bucket
    ensures var s' := MarkCompleted(s, key).value;
      && (forall x :: x in GetCompletedTasks(s') <==>
            (x in GetCompletedTasks(s) && x.key != key) || x == s.bucket[key].(completed := true))
      && (forall x :: x in GetUncompletedTasks(s') <==> x in GetUncompletedTasks(s) && x.key != key)
      && |GetAllTasks(s')| == |GetAllTasks(s)|
  {
    var t := s.bucket[key];
    var s' := MarkCompleted(s, key).value;
    if !t.completed {
      assert s'.bucket == s.bucket[key := t.(completed := true)];
      ValuesReplace(s.bucket, key, t.(completed := true));
    }
  }

  /** Deleting removes exactly the task with that key from every listing. */
  lemma DeleteRemovesFromListings(s: Store, key: Int64)
    requires Valid(s)
    ensures var s' := DeleteTask(s, key);
      && (forall x :: x in GetAllTasks(s') <==> x in GetAllTasks(s) && x.key != key)
      && (forall x :: x in GetCompletedTasks(s') <==> x in GetCompletedTasks(s) && x.key != key)
      && (forall x :: x in GetUncompletedTasks(s') <==> x in GetUncompletedTasks(s) && x.key != key)
      && |GetAllTasks(s')| == |GetAllTasks(s)| - (if key in s.bucket then 1 else 0)
  {
    ValuesRemove(s.bucket, key);
    assert DeleteTask(s, key).bucket.Keys == s.bucket.Keys - {key};
  }
}

=== FILE: text.dfy ===
/** `strings.Join` and `strings.Split` (with a one-character separator). */
module Text {

  /** `strings.Join(xs, sep)`. */
  function Join(xs: seq<string>, sep: string): (r: string)
    ensures |xs| == 0 ==> r == ""
    ensures |xs| == 1 ==> r == xs[0]
    ensures |xs| >= 1 ==> |r| >= |xs[0]| && r[..|xs[0]|] == xs[0]
  {
    if |xs| == 0 then ""
    else if |xs| == 1 then xs[0]
    else xs[0] + sep + Join(xs[1..], sep)
  }

  /** Index of the first occurrence of c in s. */
  function IndexOf(s: string, c: char): (i: nat)
    requires c in s
    ensures i < |s| && s[i] == c && c !in s[..i]
  {
    if s[0] == c then 0
    else
      var j := IndexOf(s[1..], c);
      assert s[1..][..j] == s[1..j + 1];
      j + 1
  }

  /** `strings.Split(s, [sep])`: the pieces between separators; text without
      a separator, the empty string included, is one piece. */
  function Split(s: string, sep: char): (r: seq<string>)
    ensures |r| >= 1
    ensures forall i :: 0 <= i < |r| ==> sep !in r[i]
    decreases |s|
  {
    if sep !in s then [s]
    else
      var i := IndexOf(s, sep);
      [s[..i]] + Split(s[i + 1..], sep)
  }

  /** Number of occurrences of c in s. */
  function Count(s: string, c: char): (n: nat)
    ensures n <= |s|
    ensures n == 0 <==> c !in s
  {
    if |s| == 0 then 0
    else (if s[0] == c then 1 else 0) + Count(s[1..], c)
  }

  lemma {:induction false} CountAppend(a: string, b: string, c: char)
    ensures Count(a + b, c) == Count(a, c) + Count(b, c)
  {
    if |a| > 0 {
      assert (a + b)[1..] == a[1..] + b;
      CountAppend(a[1..], b, c);
    } else {
      assert a + b == b;
    }
  }

  lemma IndexOfAfterPrefix(a: string, b: string, c: char)
    requires c !in a
    ensures IndexOf(a + [c] + b, c) == |a|
  {
    var s := a + [c] + b;
    assert s[|a|] == c;
    assert s[..|a|] == a;
  }

  /** Splitting text that starts with a separator-free piece and a separator
      yields that piece first. */
  lemma SplitAfterPiece(head: string, rest: string, sep: char)
    requires sep !in head
    ensures Split(head + [sep] + rest, sep) == [head] + Split(rest, sep)
  {
    var s := head + [sep] + rest;
    IndexOfAfterPrefix(head, rest, sep);
    assert s[..|head|] == head;
    assert s[|head| + 1..] == rest;
  }

  /** Joining pieces that hold no separator and splitting again gives the pieces back. */
  lemma {:induction false} SplitJoin(xs: seq<string>, sep: char)
    requires |xs| >= 1
    requires forall i :: 0 <= i < |xs| ==> sep !in xs[i]
    ensures Split(Join(xs, [sep]), sep) == xs
  {
    if |xs| > 1 {
      var head, tail := xs[0], xs[1..];
      forall i | 0 <= i < |tail|
        ensures sep !in tail[i]
      {
        assert tail[i] == xs[i + 1];
      }
      var rest := Join(tail, [sep]);
      assert Join(xs, [sep]) == head + [sep] + rest;
      SplitAfterPiece(head, rest, sep);
      SplitJoin(tail, sep);
      assert Split(rest, sep) == tail;
      assert [head] + tail == xs;
    }
  }

  /** Joining n pieces free of the separator character puts exactly n - 1 of it in the text. */
  lemma {:induction false} JoinSeparatorCount(xs: seq<string>, sep: char)
    requires |xs| >= 1
    requires forall i :: 0 <= i < |xs| ==> sep !in xs[i]
    ensures Count(Join(xs, [sep]), sep) == |xs| - 1
  {
    if |xs| > 1 {
      JoinSeparatorCount(xs[1..], sep);
      CountAppend(xs[0], [sep], sep);
      CountAppend(xs[0] + [sep], Join(xs[1..], [sep]), sep);
    }
  }

  /** The last piece ends the joined text. */
  lemma {:induction false} JoinEndsWithLast(xs: seq<string>, sep: string)
    requires |xs| >= 1
    ensures |Join(xs, sep)| >= |xs[|xs| - 1]|
    ensures Join(xs, sep)[|Join(xs, sep)| - |xs[|xs| - 1]|..] == xs[|xs| - 1]
  {
    if |xs| > 1 {
      JoinEndsWithLast(xs[1..], sep);
      assert xs[1..][|xs[1..]| - 1] == xs[|xs| - 1];
    }
  }
}

=== FILE: util.dfy ===
/** `util.SliceToString`: a list of ints as space-separated decimal text. */
module Util {
  import opened Ints
  import opened Results
  import opened Decimal
  import opened Text

  /** The `strconv.Itoa` rendering of each element, in order. */
  function Numerals(xs: seq<int>): (ns: seq<string>)
    ensures |ns| == |xs|
    ensures forall i :: 0 <= i < |xs| ==> ns[i] == Itoa(xs[i]) && ' ' !in ns[i]
  {
    seq(|xs|, i requires 0 <= i < |xs| => ItoaHasNoSpace(xs[i]); Itoa(xs[i]))
  }

  /** `SliceToString`: the numerals joined by single spaces; an empty list gives
      the empty string, and otherwise there is no leading or trailing space and
      exactly one space between neighbours. */
  function SliceToString(xs: seq<int>): (r: string)
    ensures r == "" <==> |xs| == 0
    ensures |xs| >= 1 ==> Split(r, ' ') == Numerals(xs)
    ensures |xs| >= 1 ==> r[0] != ' ' && r[|r| - 1] != ' '
    ensures |xs| >= 1 ==> Count(r, ' ') == |xs| - 1
  {
    var ns := Numerals(xs);
    var r := Join(ns, " ");
    if |xs| == 0 then r
    else
      SplitJoin(ns, ' ');
      JoinSeparatorCount(ns, ' ');
      JoinEndsWithLast(ns, " ");
      var last := ns[|ns| - 1];
      assert r[|r| - |last|..][|last| - 1] == r[|r| - 1];
      assert r[..|ns[0]|][0] == r[0];
      r
  }

  /** Parses every token with `strconv.Atoi`; fails if any token does not parse. */
  function ParseAll(tokens: seq<string>): (r: Option<seq<Int64>>)
    ensures r.Some? ==> |r.value| == |tokens|
    ensures r.Some? <==> forall i :: 0 <= i < |tokens| ==> Atoi(tokens[i]).Some?
  {
    if |tokens| == 0 then Some([])
    else
      match Atoi(tokens[0])
      case None => None
      case Some(v) =>
        match ParseAll(tokens[1..])
        case None =>
          assert forall i :: 1 <= i < |tokens| ==> tokens[1..][i - 1] == tokens[i];
          None
        case Some(vs) => Some([v] + vs)
  }

  lemma {:induction false} ParseAllNumerals(xs: seq<Int64>)
    ensures ParseAll(Numerals(xs)) == Some(xs)
  {
    if |xs| > 0 {
      AtoiItoa(xs[0]);
      assert Numerals(xs)[1..] == Numerals(xs[1..]);
      ParseAllNumerals(xs[1..]);
      assert [xs[0]] + xs[1..] == xs;
    }
  }

  /** Splitting the text on single spaces and parsing each piece returns the list. */
  lemma SliceToStringRoundTrip(xs: seq<Int64>)
    requires |xs| >= 1
    ensures ParseAll(Split(SliceToString(xs), ' ')) == Some(xs)
  {
    ParseAllNumerals(xs);
  }
}
